=== FILE: README.md ===
# libQuotient core logic in Dafny

A Dafny model of four small, sequential pieces of the libQuotient Matrix
client library, with proofs of what each promises:

- **Event factory and type tests** (`Events`, `events.dfy`). An event factory
  keeps its registered factory methods in registration order. One method
  stands for each event class. `addMethod` is idempotent. `loadEvent` builds
  the event with the first method whose class type id equals the wire type.
  When none matches, it builds an unknown event of the base class with type
  tag `"?"`, so the result is never null. `is`, `isUnknown`, `eventCast` and
  every typed `switchOnType` overload dispatch on that type tag; the
  catch-all overload calls its function unconditionally. `basicJson` and the
  getter/constructor pair made by `DEFINE_SIMPLE_EVENT` are modelled too.
- **Room messages and playable content** (`RoomMessage`, `roommessage.dfy`).
  This covers the `MsgType` enumeration with the Matrix Client-Server API
  `msgtype` strings, the field constructor and accessors of
  `RoomMessageEvent`, and `TextContent::type()`. It also covers the
  `PlayableContent<ContentT>` decorator. On construction the decorator reads
  `info.duration`, with 0 as the default. On serialisation it lets the base
  write its keys, then takes `info` out, inserts `duration` into it and puts
  it back. The base
  content is a type parameter, and its parser and `fillJson` are arbitrary
  functions.
- **Account registry** (`AccountRegistry`, `accountregistry.dfy`). The
  registry is a list of connections. `add` and `drop` treat it as a set.
  `isLoggedIn` and `get` look connections up by user id, and `rowCount` and
  `data` give a bounds-checked list-model view. The invariant "no connection
  appears twice" is kept by `add` and `drop`. It is what makes the assertion
  at the end of `drop` hold.
- **Olm utility** (`OlmUtility`, `olmutility.dfy`; `Utf8`, `utf8.dfy`).
  `ed25519Verify` sorts the library's outcome into three cases: `true` on
  success, `false` for a bad MAC, or the library's error otherwise.
  `sha256Bytes` sizes its output buffer from the library, and `sha256Utf8Msg`
  hashes the message's UTF-8 bytes. The lifecycle of the owned context is a
  state machine: allocate, initialise, operate, clear, free.

Shared pieces: `Wrappers` (`Option` for null pointers and empty variants,
`Result` for `QOlmExpected`) and `Json`, a model of Qt's JSON value and
object. It includes the lenient `toObject()` and `toInt()` conversions and
`take`.

Modelling choices:

- Foreign code is passed in as function-valued fields of an `OlmLibrary`
  record: Olm's SHA-256 (section 6.2 of FIPS 180-4), its Ed25519 verification
  (section 5.1.7 of RFC 8032), its last-error query, and Qt's
  `QString::fromUtf8`. Nothing is assumed about them.
- `olm_error()` is `(size_t)-1` with a 64-bit `size_t`.
- `QByteArray` sizes are Qt 5 `int`s: `olm_sha256_length` is narrowed to 32
  bits when the output buffer is built, and a size that reads as negative
  gives an empty buffer.
- JSON numbers are reals, because Qt stores doubles. `toInt()` follows Qt 5:
  only an integral number within `int` range converts, and anything else gives
  the default 0.
- `addMethod` looks for an equal method pointer, so its identity is the event
  class, not the type id. Two classes with the same type id are two entries.
  `loadEvent` then picks the first of them.
- Event classes pass their own `TypeId` to the base constructor, as
  `DEFINE_SIMPLE_EVENT` does (lib/events/event.h:309). `Event::contentJson()`
  lives in `event.cpp`, which is not part of this model. It is taken to be
  the `content` object of the full JSON.
- A connection is its pointer and nothing else: `add` and `drop` compare
  pointers (`contains`, `indexOf`). `isLoggedIn` and `get` read each connection's
  `userId()` at the time of the call, through a function passed in. Two
  connections may therefore share a user id.
- `AccountRole` is `Qt::UserRole + 1`, which is 257. `accountregistry.h` is
  not part of this model.
- `PlayableContent` reads `duration` from the base's `originalInfoJson`. The
  base constructor is in `eventcontent.cpp`, which is not part of this model.
  The model takes `originalInfoJson` to be the content JSON's `info` object.
  Since the base content is a type parameter, the constructor's change to
  `originalInfoJson` (the inserted `"duration": null`) is returned beside the
  playable content.
- The documented intent for `ed25519Verify` is a three-way split of failures:
  a bad signature, invalid input, and a library fault. The code does not make
  that split. A bad MAC becomes `false`, and every other `QOlmError` is
  returned as it is. The model follows the code. The code also
  returns `!ret`, so a non-error, non-zero return value gives `false`. The
  model keeps that too.

## Model

| member | source | states |
|---|---|---|
| `Events.MakeIfMatches` | lib/events/event.h:120-127 | yields an event, of that class, with the given JSON and the wire type as its tag, exactly when the class's type id equals the wire type; null otherwise |
| `Events.AddMethod` | lib/events/event.h:141-150 | an already registered class leaves the factory unchanged; a new class is appended at the end; the returned entry is the class's method and is registered; no method ever appears twice |
| `Events.AddMethodIdempotent` | lib/events/event.h:142-147 | registering the same class a second time changes nothing and returns the same entry |
| `Events.AddMethodAppends` | lib/events/event.h:148-149 | a new class grows the method list by exactly one entry, at the end, with all earlier entries unchanged |
| `Events.LoadEvent` | lib/events/event.h:152-158 | the result is the event built by the first registered method, in registration order, that matches the wire type; if none matches it is an unknown event (`"?"`, so `isUnknown` holds) of the base class carrying the JSON; it is never null, its JSON is the input, it either has the wire type or is unknown, and for a wire type other than `"?"` it is unknown only when no method matched |
| `Events.BasicJson` | lib/events/event.h:189-194 | the minimal event JSON has exactly the keys `type` and `content`, holding the matrix type and the content object |
| `Events.IsMadeClass` | lib/events/event.h:324-328 | `is<EventT>` holds of an event made as `EventT`, and of an event of another class exactly when the two type ids are equal, since it compares the type tag |
| `Events.UnknownIsNoKnownClass` | lib/events/event.h:330-333 | an event that passes `isUnknown` passes `is<EventT>` for no class with a real type id |
| `Events.EventCast` | lib/events/event.h:324-342 | the cast is non-null exactly when the event's type tag is the class's type id (`is<EventT>`), and then it is the same event |
| `Events.SwitchOnTypeOr` | lib/events/event.h:371-382 | the typed switch with a default returns the function applied to the event when the type matches, the default otherwise |
| `Events.SwitchOnTypeVoid` | lib/events/event.h:360-369 | the void typed switch runs the function exactly when the type matches |
| `Events.SwitchOnType` | lib/events/event.h:344-394 | the chain applies the first function whose argument type accepts the event (a base-typed last function accepts all); if none accepts, the default value results |
| `Events.SimpleEventRoundTrip` | lib/events/event.h:304-320 | an event built from a value by the `DEFINE_SIMPLE_EVENT` constructor is of its class, has exactly `type` and `content`, and its getter returns the value |
| `RoomMessage.ParseMsgType` | events/roommessageevent.h:40-43 | a wire string that maps to a known kind is exactly that kind's `msgtype` name |
| `RoomMessage.ParseWireName` | events/roommessageevent.h:40-43 | every kind other than `Unknown` maps back to itself from its wire name |
| `RoomMessage.ParseUnknownIff` | events/roommessageevent.h:40-43 | a wire string maps to `Unknown` exactly when it is no kind's name, so unknown strings never fail |
| `RoomMessage.FieldConstructorStoresVerbatim` | events/roommessageevent.h:45-60 | the field constructor (body first, msgtype second) makes an `m.room.message` whose `rawMsgtype`, `plainBody` and `content` return its arguments unchanged |
| `RoomMessage.TextContentType` | events/roommessageevent.h:93 | text content reports the MIME type it holds as its type |
| `RoomMessage.PlayableFromJson` | events/roommessageevent.h:139-142 | the base is built from the same JSON; the duration is `info.duration` when that is an integral `int`, and 0 when it is absent or anything else; the base's `originalInfoJson` is left as it was when it held `duration`, and otherwise gains `"duration": null` with every other key kept |
| `RoomMessage.PlayableFillJson` | events/roommessageevent.h:145-151 | after `fillJson`, `info` is an object whose `duration` is the duration; the top-level keys are the base's plus `info`, and every other base key is unchanged; every key the base put in an `info` object other than `duration` is kept; with no `info` from the base, `info` holds only `duration` |
| `RoomMessage.PlayableRoundTrip` | events/roommessageevent.h:139-151 | parsing the JSON written by `fillJson` gives back the same duration, whatever the base wrote |
| `RoomMessage.PlayableContentRoundTrip` | events/roommessageevent.h:139-151 | if the base content reads back from that JSON, the whole playable content round-trips, and the base's info is left as written since `duration` is present |
| `AccountRegistry.Add` | lib/accountregistry.cpp:12-20 | adding a contained connection is a no-op; a new one is appended at the end, the count grows by one and earlier entries are kept; the result contains it and stays duplicate-free |
| `AccountRegistry.IndexOf` | lib/accountregistry.cpp:24 | `-1` exactly when the connection is absent, otherwise the first position holding it |
| `AccountRegistry.Drop` | lib/accountregistry.cpp:22-28 | dropping an absent connection changes nothing; a present one is removed at its first position, the others keep their relative order, and the count drops by one |
| `AccountRegistry.DropUndoesAdd` | lib/accountregistry.cpp:12-28 | dropping a connection just added to a registry that lacked it gives back the registry as it was |
| `AccountRegistry.DropRemovesAll` | lib/accountregistry.cpp:22-30 | on a duplicate-free registry, the asserted `!contains(a)` holds after `drop` and the registry stays duplicate-free |
| `AccountRegistry.DropWithDuplicateKeepsOne` | lib/accountregistry.cpp:29 | without the invariant the assertion would fail: a connection held twice survives one `drop` |
| `AccountRegistry.ReachableRegistryIsUnique` | lib/accountregistry.cpp:12-30 | every registry reachable from empty by `add` and `drop` is duplicate-free, so the assertion in `drop` holds on every call |
| `AccountRegistry.IsLoggedIn` | lib/accountregistry.cpp:32-37 | true exactly when some connection's `userId()`, read at the call, is the user id |
| `AccountRegistry.Get` | lib/accountregistry.cpp:60-67 | returns the first connection whose `userId()` is the user id, and null exactly when `isLoggedIn` is false |
| `AccountRegistry.RowCount` | lib/accountregistry.cpp:50-53 | 0 under a valid parent, the number of connections under the root |
| `AccountRegistry.DataCoversRows` | lib/accountregistry.cpp:39-53 | every row counted under the root yields its connection for `AccountRole` |
| `AccountRegistry.Data` | lib/accountregistry.cpp:39-48 | the connection at the row exactly when the index is valid, in range and the role is `AccountRole`; empty otherwise |
| `OlmUtility.ClassifyVerify` | lib/e2ee/qolmutility.cpp:53-61 | a non-error return gives `true` for 0 (and `false` otherwise); an `olm_error()` with `BadMessageMac` gives the value `false`; any other error is returned as that error |
| `OlmUtility.ClassifyVerifySafe` | lib/e2ee/qolmutility.cpp:53-61 | the result is `true` only when the library returned 0, never after `olm_error()`; an error result is exactly a failure other than a bad MAC, and a bad MAC never escapes as an error |
| `OlmUtility.Ed25519Verify` | lib/e2ee/qolmutility.cpp:43-62 | the scratch buffer handed to the library has the signature's length and bytes, so the result is the classification of the library's report on the key, the message and the caller's own signature |
| `OlmUtility.WriteInto` | lib/e2ee/qolmutility.cpp:31-35 | a C call writing through `data()` keeps the buffer's length: the written bytes land at the start, cut to that length, and the rest of the buffer is kept |
| `OlmUtility.Sha256Bytes` | lib/e2ee/qolmutility.cpp:28-36 | the output buffer handed to the library has `olm_sha256_length` bytes, narrowed to an `int` as `QByteArray(int, char)` does (the full length whenever it fits an `int`); the library writes into it over the input without resizing it; the digest is that buffer read as text |
| `OlmUtility.QByteArraySize` | lib/e2ee/qolmutility.cpp:30-31 | a `size_t` length that fits an `int` is kept; otherwise the low 32 bits are kept when they read as a positive `int`, and the buffer is empty when they read as zero or negative |
| `OlmUtility.NarrowedSizes` | lib/e2ee/qolmutility.cpp:30-31 | Olm's real length 43 is kept, `2^32+5` becomes 5, and `2^31` and `olm_error()` give an empty buffer |
| `OlmUtility.Sha256Utf8Msg` | lib/e2ee/qolmutility.cpp:38-41 | the digest of a message is the digest of its UTF-8 bytes |
| `OlmUtility.Utf8MessagesHashDistinctInputs` | lib/e2ee/qolmutility.cpp:38-41 | two different messages are hashed over two different byte strings |
| `Utf8.DecodeEncode` | lib/e2ee/qolmutility.cpp:40 | decoding the UTF-8 encoding of any text gives the text back |
| `Utf8.EncodeInjective` | lib/e2ee/qolmutility.cpp:40 | texts with equal UTF-8 encodings are equal |
| `OlmUtility.Step` | lib/e2ee/qolmutility.cpp:16-26 | the context reaches the cleared state only by clearing a ready context, and the freed state only by freeing a cleared one; operations are accepted exactly on a ready context |
| `OlmUtility.NewUtility` | lib/e2ee/qolmutility.cpp:16-20 | construction allocates and initialises one context and leaves it ready |
| `OlmUtility.DisposeUtility` | lib/e2ee/qolmutility.cpp:22-26 | destruction clears the context, then frees it, after which no operation is accepted |
| `OlmUtility.UtilityLifecycle` | lib/e2ee/qolmutility.cpp:16-26 | constructing, doing any number of hash and verify operations, and destroying is a valid lifecycle ending freed |
| `OlmUtility.NothingAfterClear` | lib/e2ee/qolmutility.cpp:22-26 | after the clear the only call a context accepts is the free |
| `OlmUtility.ClearThenFreeAtEnd` | lib/e2ee/qolmutility.cpp:16-26 | every complete lifecycle ends with the clear followed by the free, and neither occurs earlier |
| `Json.Value` | lib/events/event.h:215-219 | the const lookup `contentPart` makes on the const `contentJson()` yields the stored value exactly when the key is present, and nothing (`Undefined`) otherwise; the object is not changed |
| `Json.Subscript` | events/roommessageevent.h:141 | the non-const `operator[]` reads the stored value when the key is present and leaves the object alone; when it is absent it inserts Null under the key and reads that Null; every other key keeps its value |
| `Json.SubscriptReadsLikeValue` | events/roommessageevent.h:141 | `toInt()` and `toObject()` of what the inserting subscript reads equal those of the const lookup; the object changes exactly when the key was absent; a second subscript changes nothing |
| `Json.ToObject` | events/roommessageevent.h:148 | `toObject()` yields the object held, and an empty object for any other value or an absent one |
| `Json.ToInt` | events/roommessageevent.h:141 | `toInt()` gives the number when it is an integral `int`, and 0 for anything else or an absent value |
| `Json.Take` | events/roommessageevent.h:148 | `take` yields the key's value and leaves every other key unchanged |

## Left out

- `AccountRegistry::invokeLogin`, `loadAccessTokenFromKeychain` and `accountsLoading` (lib/accountregistry.cpp:69-132): these are keychain I/O, asynchronous signal/slot callbacks and network login.
- Qt model notifications (`beginInsertRows`, `endInsertRows`, `beginRemoveRows`, `endRemoveRows`, `accountCountChanged`) and `roleNames`: UI plumbing with no effect on the registry's contents.
- `lib/csapi/appservice_room_directory.cpp`: a generated HTTP request job, which is network plumbing.
- The internals of SHA-256, Ed25519 and the `olm_*` calls, and the `fromString` parsing of Olm's error string: foreign C code. They are parameters, and `QOlmError` is mirrored as an enumeration. `qolmerrors.h` is not part of this model.
- Raw memory in the constructor and destructor (`new uint8_t[]`, `reinterpret_cast`): only the abstract allocate/initialise/clear/free calls are modelled.
- `Utf8.Encode`: models `QString::toUtf8` on text made of Unicode scalar values. A `QString` holding an unpaired UTF-16 surrogate is not modelled, because Dafny characters cannot represent one.
- `RoomMessageEvent::msgtype()`, `toJson()`, `mimeType()`, `hasFileContent()` and the JSON constructor, plus the `TextContent`, `LocationContent` and `UrlBasedContent` constructors and `fillJson`: their bodies are not part of this model. Only `msgtype()`'s enumeration and the Client-Server API table of wire names are modelled.
- From `lib/events/event.h`: `QDebug` output, the logging in `logAddingMethod`, deprecated aliases and `visit`, `Q_DECLARE_METATYPE`, `rawPtr`/`weakPtrCast`, `contentPart`/`unsignedPart` in general, `visitEach`, and the compile-time overload selection (`needs_downcast`). That selection is kept only as its dispatch meaning: a typed or catch-all handler.
- The `Q_ASSERT(eptr)` in `eventCast`: events are values here, so a null event pointer cannot be passed.
- `Events.SimpleEventRoundTrip`: treats the value type as a string and takes the JSON key as given. `toSnakeCase` is not part of this model.

=== FILE: accountregistry.dfy ===
/** `AccountRegistry`: the list of logged-in connections, kept free of
    duplicates by `add`, with lookup by user id and the list-model view. */
module AccountRegistry {
  import opened Wrappers

  /** A `Connection*`: nothing but the pointer's identity. The registry
      compares connections by pointer only (`contains`, `indexOf`). */
  datatype Connection = Connection(handle: nat)

  /** `Connection::userId()` as it reads at the time of a lookup; two
      connections may share a user id. */
  type UserIdOf = Connection -> string

  /** `Qt::UserRole` and the registry's `AccountRole`, the next role after it. */
  const UserRole: int := 0x0100
  const AccountRole: int := UserRole + 1

  /** A `QModelIndex` of a flat list model: invalid, or valid with a row. */
  datatype ModelIndex = Invalid | Valid(row: nat)

  /** No connection occurs twice. */
  predicate NoDuplicates(s: seq<Connection>) {
    forall i, j :: 0 <= i < j < |s| ==> s[i] != s[j]
  }

  /** `add`: a connection already present is ignored; a new one goes to the end. */
  function Add(s: seq<Connection>, a: Connection): (r: seq<Connection>)
    ensures a in s ==> r == s
    ensures a !in s ==> |r| == |s| + 1 && r[..|s|] == s && r[|s|] == a
    ensures a in r
    ensures NoDuplicates(s) ==> NoDuplicates(r)
  {
    if a in s then s else s + [a]
  }

  /** `indexOf`: the first position holding `a`, or -1. */
  function IndexOf(s: seq<Connection>, a: Connection): (idx: int)
    ensures idx == -1 <==> a !in s
    ensures idx != -1 ==> 0 <= idx < |s| && s[idx] == a
    ensures forall k :: 0 <= k < idx ==> s[k] != a
  {
    if |s| == 0 then -1
    else if s[0] == a then 0
    else
      var rest := IndexOf(s[1..], a);
      if rest == -1 then -1 else rest + 1
  }

  /** `drop`: removes the first occurrence of `a`, if any, keeping the order
      of the others. */
  function Drop(s: seq<Connection>, a: Connection): (r: seq<Connection>)
    ensures a !in s ==> r == s
    ensures a in s ==> |r| == |s| - 1
    ensures a in s ==> forall k :: 0 <= k < |r| ==>
      r[k] == (if k < IndexOf(s, a) then s[k] else s[k + 1])
  {
    var idx := IndexOf(s, a);
    if idx == -1 then s else s[..idx] + s[idx + 1..]
  }

  /** Under the no-duplicates invariant the assertion at the end of `drop`
      holds: the dropped connection is gone, and the invariant is kept. */
  lemma DropRemovesAll(s: seq<Connection>, a: Connection)
    requires NoDuplicates(s)
    ensures a !in Drop(s, a)
    ensures NoDuplicates(Drop(s, a))
  {
    var r := Drop(s, a);
    if a in s {
      var idx := IndexOf(s, a);
      forall i, j | 0 <= i < j < |r| ensures r[i] != r[j] {
        var si := if i < idx then i else i + 1;
        var sj := if j < idx then j else j + 1;
        assert r[i] == s[si] && r[j] == s[sj];
      }
    }
  }

  /** `drop` undoes an `add` of a new connection. */
  lemma DropUndoesAdd(s: seq<Connection>, a: Connection)
    requires a !in s
    ensures Drop(Add(s, a), a) == s
  {
    assert forall k :: 0 <= k < |s| ==> (s + [a])[k] == s[k];
    assert (s + [a])[..|s|] == s;
  }

  /** Without the invariant the assertion could fail: a list holding the
      same connection twice still holds it after one `drop`. */
  lemma DropWithDuplicateKeepsOne(a: Connection)
    ensures a in Drop([a, a], a)
  {
    assert Drop([a, a], a) == [a];
  }

  /** A call that changes the registry. */
  datatype Change = AddAccount(a: Connection) | DropAccount(a: Connection)

  function Apply(s: seq<Connection>, c: Change): seq<Connection> {
    match c
    case AddAccount(a) => Add(s, a)
    case DropAccount(a) => Drop(s, a)
  }

  /** The registry after a history of changes, starting empty. */
  function Replay(history: seq<Change>): seq<Connection> {
    if |history| == 0 then []
    else Apply(Replay(history[..|history| - 1]), history[|history| - 1])
  }

  /** Every registry reachable through `add` and `drop` is duplicate-free, so
      the assertion in `drop` holds on every call. */
  lemma {:induction false} ReachableRegistryIsUnique(history: seq<Change>, a: Connection)
    ensures NoDuplicates(Replay(history))
    ensures a !in Drop(Replay(history), a)
  {
    if |history| > 0 {
      ReachableRegistryIsUnique(history[..|history| - 1], a);
      var prev := Replay(history[..|history| - 1]);
      match history[|history| - 1]
      case AddAccount(b) =>
      case DropAccount(b) => DropRemovesAll(prev, b);
    }
    DropRemovesAll(Replay(history), a);
  }

  /** `isLoggedIn`: some connection belongs to `userId`. */
  function IsLoggedIn(s: seq<Connection>, userIdOf: UserIdOf, userId: string): (r: bool)
    ensures r <==> exists i :: 0 <= i < |s| && userIdOf(s[i]) == userId
  {
    if |s| == 0 then false
    else if userIdOf(s[0]) == userId then true
    else
      var rest := IsLoggedIn(s[1..], userIdOf, userId);
      assert rest ==> exists i :: 0 <= i < |s| && userIdOf(s[i]) == userId by {
        if rest {
          var i :| 0 <= i < |s[1..]| && userIdOf(s[1..][i]) == userId;
          assert userIdOf(s[i + 1]) == userId;
        }
      }
      rest
  }

  /** `get`: the first connection of `userId`, or null. */
  method Get(s: seq<Connection>, userIdOf: UserIdOf, userId: string) returns (r: Option<Connection>)
    ensures r.None? <==> !IsLoggedIn(s, userIdOf, userId)
    ensures r.Some? ==> exists i :: 0 <= i < |s| && s[i] == r.value && userIdOf(r.value) == userId
                                   && forall k :: 0 <= k < i ==> userIdOf(s[k]) != userId
  {
    var i := 0;
    while i < |s|
      invariant 0 <= i <= |s|
      invariant forall k :: 0 <= k < i ==> userIdOf(s[k]) != userId
    {
      if userIdOf(s[i]) == userId {
        return Some(s[i]);
      }
      i := i + 1;
    }
    r := None;
  }

  /** `rowCount`: a flat list; only the root has rows. */
  function RowCount(s: seq<Connection>, parent: ModelIndex): (r: nat)
    ensures parent.Valid? ==> r == 0
    ensures parent.Invalid? ==> r == |s|
  {
    if parent.Valid? then 0 else |s|
  }

  /** Every row the root reports holds its connection under `AccountRole`. */
  lemma DataCoversRows(s: seq<Connection>, row: nat)
    requires row < RowCount(s, Invalid)
    ensures Data(s, Valid(row), AccountRole) == Some(s[row])
  {
  }

  /** `data`: the connection in the row, for a valid in-range index asked
      for `AccountRole`; an empty variant otherwise. */
  function Data(s: seq<Connection>, index: ModelIndex, role: int): (r: Option<Connection>)
    ensures r.Some? <==> index.Valid? && index.row < |s| && role == AccountRole
    ensures r.Some? ==> r.value == s[index.row]
  {
    if index.Invalid? || index.row >= |s| then None
    else if role == AccountRole then Some(s[index.row])
    else None
  }
}

=== FILE: events.dfy ===
/** Event objects, the event factory that builds them from wire JSON, and
    the type-tag tests (`is`, `isUnknown`, `eventCast`, `switchOnType`)
    used to dispatch on them. */
module Events {
  import opened Wrappers
  import opened Json

  /** Standard Matrix key names. */
  const TypeKey: string := "type"
  const ContentKey: string := "content"

  /** The type tag of an event no registered class recognised. */
  const UnknownEventTypeId: string := "?"

  /** An event class: its C++ name (the identity the factory compares) and
      its `TypeId`, the Matrix type string it stands for. */
  datatype EventClass = EventClass(name: string, typeId: string)

  /** An event object: the class it was created as, its type tag `_type`
      and its full JSON `_json`. */
  datatype Event = Event(className: string, eventType: string, fullJson: JsonObject)

  /** `makeEvent<EventT>(json)`: an object of `cls` built from `json`. Event
      classes pass their own `TypeId` to the base constructor, as
      `DEFINE_SIMPLE_EVENT` does. */
  function MakeEvent(cls: EventClass, json: JsonObject): Event {
    Event(cls.name, cls.typeId, json)
  }

  /** `Event::basicJson`: the minimal event JSON, a type and a content. */
  function BasicJson(matrixType: string, content: JsonObject): (r: JsonObject)
    ensures r.Keys == {TypeKey, ContentKey}
    ensures r[TypeKey] == String(matrixType)
    ensures r[ContentKey] == Object(content)
  {
    map[TypeKey := String(matrixType), ContentKey := Object(content)]
  }

  /** `Event::contentJson()`: the `content` object of the event JSON. */
  function ContentJson(e: Event): JsonObject {
    ToObject(Value(e.fullJson, ContentKey))
  }

  // === Factory ===

  /** `EventFactory<BaseEventT>`: the class whose object stands for an
      unknown event, and the registered factory methods in registration
      order; one method `makeIfMatches<EventT>` per registered class. */
  datatype EventFactory = EventFactory(baseClass: string, methods: seq<EventClass>)

  /** `makeIfMatches<EventT>`: an event of `cls` when the wire type is the
      class's type id, and null otherwise. */
  function MakeIfMatches(cls: EventClass, json: JsonObject, matrixType: string): (r: Option<Event>)
    ensures r.Some? <==> cls.typeId == matrixType
    ensures r.Some? ==> r.value.className == cls.name && r.value.eventType == matrixType
                        && r.value.fullJson == json
  {
    if cls.typeId == matrixType then Some(MakeEvent(cls, json)) else None
  }

  /** No factory method is registered twice. */
  predicate NoDuplicateMethods(methods: seq<EventClass>) {
    forall i, j :: 0 <= i < j < |methods| ==> methods[i] != methods[j]
  }

  /** `addMethod<EventT>`: registers the method for `cls` unless an equal
      method is already there, and yields the registered entry. */
  function AddMethod(f: EventFactory, cls: EventClass): (r: (EventFactory, EventClass))
    ensures cls in f.methods ==> r.0 == f
    ensures cls !in f.methods ==> r.0 == f.(methods := f.methods + [cls])
    ensures r.1 == cls && r.1 in r.0.methods
    ensures NoDuplicateMethods(f.methods) ==> NoDuplicateMethods(r.0.methods)
  {
    if cls in f.methods then (f, cls)
    else (f.(methods := f.methods + [cls]), cls)
  }

  /** Registering the same class twice is the same as registering it once. */
  lemma AddMethodIdempotent(f: EventFactory, cls: EventClass)
    ensures AddMethod(AddMethod(f, cls).0, cls) == AddMethod(f, cls)
  {
  }

  /** A new class lands at the end, one entry longer, earlier entries kept. */
  lemma AddMethodAppends(f: EventFactory, cls: EventClass)
    requires cls !in f.methods
    ensures |AddMethod(f, cls).0.methods| == |f.methods| + 1
    ensures AddMethod(f, cls).0.methods[|f.methods|] == cls
    ensures AddMethod(f, cls).0.methods[..|f.methods|] == f.methods
  {
  }

  /** Index of the first method whose class has type id `matrixType`. */
  predicate IsFirstMatch(methods: seq<EventClass>, matrixType: string, i: int) {
    && 0 <= i < |methods|
    && methods[i].typeId == matrixType
    && forall k :: 0 <= k < i ==> methods[k].typeId != matrixType
  }

  /** `loadEvent`: the event made by the first registered method that
      matches the wire type; an unknown event of the base class when none
      does. The result is never null. */
  method LoadEvent(f: EventFactory, json: JsonObject, matrixType: string) returns (e: Event)
    ensures forall i :: IsFirstMatch(f.methods, matrixType, i) ==> e == MakeEvent(f.methods[i], json)
    ensures (forall i :: 0 <= i < |f.methods| ==> f.methods[i].typeId != matrixType)
            ==> e == Event(f.baseClass, UnknownEventTypeId, json) && IsUnknown(e)
    ensures IsUnknown(e) && matrixType != UnknownEventTypeId
            ==> forall i :: 0 <= i < |f.methods| ==> f.methods[i].typeId != matrixType
    ensures e.fullJson == json
    ensures e.eventType == matrixType || IsUnknown(e)
  {
    var i := 0;
    while i < |f.methods|
      invariant 0 <= i <= |f.methods|
      invariant forall k :: 0 <= k < i ==> f.methods[k].typeId != matrixType
    {
      var made := MakeIfMatches(f.methods[i], json, matrixType);
      if made.Some? {
        assert IsFirstMatch(f.methods, matrixType, i);
        return made.value;
      }
      i := i + 1;
    }
    e := Event(f.baseClass, UnknownEventTypeId, json);
  }

  // === Type tests ===

  /** `is<EventT>`: the event's type tag is the class's type id. */
  predicate Is(cls: EventClass, e: Event) {
    e.eventType == cls.typeId
  }

  /** `isUnknown`: the event's type tag is the unknown type id. */
  predicate IsUnknown(e: Event) {
    e.eventType == UnknownEventTypeId
  }

  /** An event made as a class passes `is<>` for that class, and for every
      class with the same type id: the test reads the tag, not the class. */
  lemma IsMadeClass(cls: EventClass, other: EventClass, json: JsonObject)
    ensures Is(cls, MakeEvent(cls, json))
    ensures Is(other, MakeEvent(cls, json)) <==> other.typeId == cls.typeId
  {
  }

  /** An unknown event passes `is<>` for no class whose type id is a real
      one. */
  lemma UnknownIsNoKnownClass(cls: EventClass, e: Event)
    requires cls.typeId != UnknownEventTypeId
    ensures IsUnknown(e) ==> !Is(cls, e)
  {
  }

  /** `eventCast<EventT>`: the same event viewed as `cls` when its type tag
      matches, otherwise null. */
  function EventCast(cls: EventClass, e: Event): (r: Option<Event>)
    ensures r.Some? <==> e.eventType == cls.typeId
    ensures r.Some? ==> r.value == e
  {
    if Is(cls, e) then Some(e) else None
  }

  /** One function given to `switchOnType`: either it takes a specific
      event class, or it takes the base event type and so accepts any
      event (the catch-all overload). */
  datatype Handler<R> =
    | Typed(target: EventClass, fn: Event -> R)
    | CatchAll(fn: Event -> R)

  predicate Accepts<R>(h: Handler<R>, e: Event) {
    h.CatchAll? || Is(h.target, e)
  }

  /** `switchOnType` for a typed function with a default value: the
      function's result when the type matches, otherwise the default. */
  function SwitchOnTypeOr<R>(e: Event, target: EventClass, fn: Event -> R, defaultValue: R): (r: R)
    ensures Is(target, e) ==> r == fn(e)
    ensures !Is(target, e) ==> r == defaultValue
  {
    if Is(target, e) then fn(e) else defaultValue
  }

  /** `switchOnType` for a void typed function: whether, and with what
      effect, the function ran. */
  function SwitchOnTypeVoid<R>(e: Event, target: EventClass, fn: Event -> R): (r: Option<R>)
    ensures r.Some? <==> Is(target, e)
    ensures r.Some? ==> r.value == fn(e)
  {
    if Is(target, e) then Some(fn(e)) else None
  }

  /** The chained `switchOnType(event, fn1, fn2, fns...)`: the first function
      whose argument type accepts the event is applied. Only the last function
      may be a catch-all (anything else does not compile); when no function
      accepts the event, the last one's default value is returned. */
  function SwitchOnType<R>(e: Event, handlers: seq<Handler<R>>, defaultValue: R): (r: R)
    requires |handlers| >= 1
    requires forall i :: 0 <= i < |handlers| - 1 ==> handlers[i].Typed?
    ensures forall i :: 0 <= i < |handlers| && Accepts(handlers[i], e)
                        && (forall k :: 0 <= k < i ==> !Accepts(handlers[k], e))
                        ==> r == handlers[i].fn(e)
    ensures (forall i :: 0 <= i < |handlers| ==> !Accepts(handlers[i], e)) ==> r == defaultValue
    decreases |handlers|
  {
    if |handlers| == 1 then
      match handlers[0]
      case CatchAll(fn) => fn(e)
      case Typed(target, fn) => SwitchOnTypeOr(e, target, fn, defaultValue)
    else if Is(handlers[0].target, e) then handlers[0].fn(e)
    else SwitchOnType(e, handlers[1..], defaultValue)
  }

  // === DEFINE_SIMPLE_EVENT ===

  /** A class made by `DEFINE_SIMPLE_EVENT`: an event class holding one
      string value in its content under `jsonKey`, the snake_case form of
      the getter's name. */
  datatype SimpleEventClass = SimpleEventClass(cls: EventClass, jsonKey: string)

  /** The constructor from a value: `basicJson(TypeId, {{JsonKey, value}})`. */
  function MakeSimpleEvent(sc: SimpleEventClass, value: string): Event {
    MakeEvent(sc.cls, BasicJson(sc.cls.typeId, map[sc.jsonKey := String(value)]))
  }

  /** The getter: `contentPart<QString>(JsonKey)`, which is the empty string
      when the key is absent or not a string. */
  function SimpleGetter(sc: SimpleEventClass, e: Event): string {
    match Value(ContentJson(e), sc.jsonKey)
    case Some(String(s)) => s
    case _ => ""
  }

  /** The getter reads back what the constructor stored, and the event is of
      the simple class. */
  lemma SimpleEventRoundTrip(sc: SimpleEventClass, value: string)
    ensures SimpleGetter(sc, MakeSimpleEvent(sc, value)) == value
    ensures Is(sc.cls, MakeSimpleEvent(sc, value))
    ensures MakeSimpleEvent(sc, value).fullJson.Keys == {TypeKey, ContentKey}
  {
  }
}

=== FILE: json.dfy ===
/** The part of Qt's JSON model (`QJsonValue`, `QJsonObject`) that the
    event and content code relies on: key lookup, `take`, `insert` and the
    lenient conversions `toObject()` and `toInt()`. */
module Json {
  import opened Wrappers

  /** A JSON value. Numbers are doubles in Qt; they are modelled as reals. */
  datatype Json =
    | Null
    | Bool(b: bool)
    | Number(n: real)
    | String(s: string)
    | Array(items: seq<Json>)
    | Object(fields: map<string, Json>)

  type JsonObject = map<string, Json>

  /** The range of a C++ `int` on the platforms Qt supports. */
  const IntMin: int := -0x8000_0000
  const IntMax: int := 0x7fff_ffff

  type Int32 = x: int | IntMin <= x <= IntMax

  /** `QJsonObject::value(key)` / `operator[] const`: the value stored under
      `key`, or nothing (Qt's `Undefined`). */
  function Value(o: JsonObject, key: string): (r: Option<Json>)
    ensures r.Some? <==> key in o
    ensures r.Some? ==> r.value == o[key]
  {
    if key in o then Some(o[key]) else None
  }

  /** The non-const `QJsonObject::operator[](key)`, read through the
      reference it returns: the value under `key`. When `key` is absent, a
      Null value is inserted under it first, and that Null is what is read.
      The result pairs the value read with the object after the call. */
  function Subscript(o: JsonObject, key: string): (r: (Json, JsonObject))
    ensures key in o ==> r.0 == o[key] && r.1 == o
    ensures key !in o ==> r.0 == Null
    ensures r.1.Keys == o.Keys + {key}
    ensures r.1[key] == r.0
    ensures forall k :: k in o ==> r.1[k] == o[k]
  {
    if key in o then (o[key], o) else (Null, o[key := Null])
  }

  /** The inserting subscript reads what the const lookup reads, as far as
      `toInt()` and `toObject()` can tell; the object changes exactly when
      the key was absent; and a second subscript changes nothing more. */
  lemma SubscriptReadsLikeValue(o: JsonObject, key: string)
    ensures ToInt(Some(Subscript(o, key).0)) == ToInt(Value(o, key))
    ensures ToObject(Some(Subscript(o, key).0)) == ToObject(Value(o, key))
    ensures Subscript(o, key).1 == o <==> key in o
    ensures Subscript(Subscript(o, key).1, key) == Subscript(o, key)
  {
  }

  /** `QJsonValue::toObject()`: the object held, or an empty object for
      anything else, including an absent value. */
  function ToObject(v: Option<Json>): (r: JsonObject)
    ensures v.Some? && v.value.Object? ==> r == v.value.fields
    ensures !(v.Some? && v.value.Object?) ==> r == map[]
  {
    match v
    case Some(Object(fields)) => fields
    case _ => map[]
  }

  /** True when `n` is a whole number representable as a C++ `int`. */
  predicate IsInt32(n: real) {
    n == n.Floor as real && IntMin <= n.Floor <= IntMax
  }

  /** `QJsonValue::toInt()` with its default of 0: a number converts only
      when it is integral and fits an `int`; any other value, and an absent
      one, gives the default. */
  function ToInt(v: Option<Json>): (r: Int32)
    ensures v.Some? && v.value.Number? && IsInt32(v.value.n) ==> r as real == v.value.n
    ensures !(v.Some? && v.value.Number? && IsInt32(v.value.n)) ==> r == 0
  {
    match v
    case Some(Number(n)) => if IsInt32(n) then n.Floor else 0
    case _ => 0
  }

  /** `QJsonValue(int)`: an `int` stored as a JSON number. */
  function FromInt(i: Int32): Json {
    Number(i as real)
  }

  /** Storing an `int` and reading it back with `toInt()` gives it back. */
  lemma ToIntFromInt(i: Int32)
    ensures ToInt(Some(FromInt(i))) == i
  {
  }

  /** `QJsonObject::take(key)`: removes `key` and yields what it held. */
  function Take(o: JsonObject, key: string): (r: (Option<Json>, JsonObject))
    ensures r.0 == Value(o, key)
    ensures r.1.Keys == o.Keys - {key}
    ensures forall k :: k in r.1 ==> r.1[k] == o[k]
  {
    (Value(o, key), o - {key})
  }
}

=== FILE: olmutility.dfy ===
/** `QOlmUtility`: a wrapper owning one Olm utility context, giving SHA-256
    digests and Ed25519 signature checks. The Olm library itself (SHA-256 as
    in section 6.2 of FIPS 180-4, Ed25519 verification as in section 5.1.7
    of RFC 8032) is a parameter: only the wrapper's logic is modelled. */
module OlmUtility {
  import opened Wrappers
  import Json
  import Utf8

  type Byte = Utf8.Byte

  /** `size_t`, 64 bits wide. */
  const SizeLimit: int := 0x1_0000_0000_0000_0000
  type SizeT = n: int | 0 <= n < SizeLimit

  /** `olm_error()`: `(size_t)-1`, the value Olm calls return on failure. */
  const OlmErrorCode: SizeT := SizeLimit - 1

  /** The filler byte of freshly made buffers, `'0'`. */
  const FillByte: Byte := 0x30

  /** `QOlmError`: Olm's last-error string parsed into an enumeration. */
  datatype OlmError =
    | BadAccountKey
    | BadMessageFormat
    | BadMessageKeyId
    | BadMessageMac
    | BadMessageVersion
    | InvalidBase64
    | NotEnoughRandom
    | OutputBufferTooSmall
    | UnknownMessageIndex
    | Unknown

  /** What `olm_ed25519_verify` returned, and what `lastError` reads from the
      context right after it. */
  datatype VerifyReport = VerifyReport(ret: SizeT, lastError: OlmError)

  /** The foreign functions the wrapper calls. `sha256` receives the input
      and the output buffer and yields the bytes it writes from the buffer's
      start (`WriteInto` places them);
      `ed25519Verify` receives key, message and signature buffer; `fromUtf8`
      is `QString::fromUtf8`. */
  datatype OlmLibrary = OlmLibrary(
    sha256Length: SizeT,
    sha256: (seq<Byte>, seq<Byte>) -> seq<Byte>,
    ed25519Verify: (seq<Byte>, seq<Byte>, seq<Byte>) -> VerifyReport,
    fromUtf8: seq<Byte> -> string)

  // === Lifecycle ===

  /** Where the owned context stands. */
  datatype Phase = Unallocated | Allocated | Ready | Cleared | Freed

  /** The calls made on the context's storage. */
  datatype Call = Allocate | Initialise | Hash | Verify | Clear | Free

  /** The public operations, valid only on a ready context. */
  predicate IsOperation(c: Call) {
    c == Hash || c == Verify
  }

  /** The lifecycle as a state machine: allocate, initialise, any number of
      operations, clear, free; any other call is a misuse. */
  function Step(p: Phase, c: Call): (r: Option<Phase>)
    ensures r == Some(Cleared) <==> p == Ready && c == Clear
    ensures r == Some(Freed) <==> p == Cleared && c == Free
    ensures IsOperation(c) ==> (r.Some? <==> p == Ready)
  {
    match (p, c)
    case (Unallocated, Allocate) => Some(Allocated)
    case (Allocated, Initialise) => Some(Ready)
    case (Ready, Hash) => Some(Ready)
    case (Ready, Verify) => Some(Ready)
    case (Ready, Clear) => Some(Cleared)
    case (Cleared, Free) => Some(Freed)
    case _ => None
  }

  /** The phase after a sequence of calls, or nothing if one is a misuse. */
  function Run(p: Phase, calls: seq<Call>): Option<Phase>
    decreases |calls|
  {
    if |calls| == 0 then Some(p)
    else match Step(p, calls[0])
      case None => None
      case Some(q) => Run(q, calls[1..])
  }

  /** The constructor allocates `olm_utility_size()` bytes and initialises
      the context in them. */
  const ConstructorCalls: seq<Call> := [Allocate, Initialise]

  /** The destructor clears the context, then frees its storage. */
  const DestructorCalls: seq<Call> := [Clear, Free]

  /** Operations on a ready context, followed by the destructor's calls,
      end with the context freed. */
  lemma {:induction false} RunOperations(ops: seq<Call>)
    requires forall i :: 0 <= i < |ops| ==> IsOperation(ops[i])
    ensures Run(Ready, ops + DestructorCalls) == Some(Freed)
  {
    if |ops| > 0 {
      assert (ops + DestructorCalls)[1..] == ops[1..] + DestructorCalls;
      RunOperations(ops[1..]);
    } else {
      assert ops + DestructorCalls == [Clear, Free];
      assert [Clear, Free][1..] == [Free];
      assert Run(Freed, []) == Some(Freed);
      assert Run(Cleared, [Free]) == Some(Freed);
    }
  }

  /** Constructing, using and destroying a utility is a valid lifecycle. */
  lemma {:induction false} UtilityLifecycle(ops: seq<Call>)
    requires forall i :: 0 <= i < |ops| ==> IsOperation(ops[i])
    ensures Run(Unallocated, ConstructorCalls + ops + DestructorCalls) == Some(Freed)
  {
    var t := ConstructorCalls + ops + DestructorCalls;
    assert t[0] == Allocate && t[1..][0] == Initialise;
    assert Run(Unallocated, t) == Run(Allocated, t[1..]);
    assert t[1..][1..] == ops + DestructorCalls;
    assert Run(Allocated, t[1..]) == Run(Ready, ops + DestructorCalls);
    RunOperations(ops);
  }

  /** Once cleared, the context sees nothing but the free. */
  lemma NothingAfterClear(calls: seq<Call>)
    requires Run(Cleared, calls).Some?
    ensures calls == [] || calls == [Free]
  {
    if |calls| > 0 {
      assert calls[0] == Free;
    }
  }

  /** Any complete lifecycle ends with the clear followed by the free, and
      neither happens earlier. */
  lemma {:induction false} ClearThenFreeAtEnd(p: Phase, calls: seq<Call>)
    requires p == Unallocated || p == Allocated || p == Ready
    requires Run(p, calls) == Some(Freed)
    ensures |calls| >= 2 && calls[|calls| - 2] == Clear && calls[|calls| - 1] == Free
    ensures forall i :: 0 <= i < |calls| - 2 ==> calls[i] != Clear && calls[i] != Free
    decreases |calls|
  {
    var q := Step(p, calls[0]).value;
    if calls[0] == Clear {
      NothingAfterClear(calls[1..]);
      assert calls[1..] == [Free];
    } else {
      assert calls[0] != Free;
      ClearThenFreeAtEnd(q, calls[1..]);
      assert forall i :: 1 <= i < |calls| ==> calls[i] == calls[1..][i - 1];
    }
  }

  /** A utility: the library and the phase of its context. */
  datatype Utility = Utility(lib: OlmLibrary, phase: Phase)

  /** `QOlmUtility()`. */
  function NewUtility(lib: OlmLibrary): (u: Utility)
    ensures Run(Unallocated, ConstructorCalls) == Some(u.phase)
    ensures u.lib == lib
  {
    Utility(lib, Ready)
  }

  /** `~QOlmUtility()`. */
  function DisposeUtility(u: Utility): (r: Utility)
    requires u.phase == Ready
    ensures Run(u.phase, DestructorCalls) == Some(r.phase)
    ensures Run(r.phase, [Hash]) == None && Run(r.phase, [Verify]) == None
  {
    u.(phase := Freed)
  }

  // === Hashing ===

  /** `QByteArray(n, '0')`. */
  function FilledBuffer(n: nat): (r: seq<Byte>)
    ensures |r| == n
    ensures forall i :: 0 <= i < n ==> r[i] == FillByte
  {
    seq(n, _ => FillByte)
  }

  /** The length of `QByteArray(int size, char)` built from a `size_t`: the
      size is narrowed to a 32-bit `int` (two's complement wrap-around), and
      a size that is not positive gives an empty array. */
  function QByteArraySize(n: SizeT): (len: nat)
    ensures n <= Json.IntMax ==> len == n
    ensures len <= Json.IntMax
    ensures len == 0 || len == n % 0x1_0000_0000
  {
    var low := n % 0x1_0000_0000;
    var narrowed := if low > Json.IntMax then low - 0x1_0000_0000 else low;
    if narrowed <= 0 then 0 else narrowed
  }

  /** Narrowing at work: a length that fits is kept, a wide one keeps only
      its low 32 bits, and one whose low bits read as negative, such as
      `olm_error()`, gives an empty buffer. */
  lemma NarrowedSizes()
    ensures QByteArraySize(43) == 43
    ensures QByteArraySize(0x1_0000_0005) == 5
    ensures QByteArraySize(0x8000_0000) == 0
    ensures QByteArraySize(OlmErrorCode) == 0
  {
  }

  /** A C call writing `written` into `buf` through its data pointer: it
      cannot resize the `QByteArray`, so the written bytes land at the start,
      cut to the buffer's length, and the rest of the buffer is kept. */
  function WriteInto(buf: seq<Byte>, written: seq<Byte>): (after: seq<Byte>)
    ensures |after| == |buf|
    ensures forall i :: 0 <= i < |buf| ==>
      after[i] == (if i < |written| then written[i] else buf[i])
  {
    if |written| >= |buf| then written[..|buf|] else written + buf[|written|..]
  }

  /** The digest text of `input` computed through `lib`. */
  function Digest(lib: OlmLibrary, input: seq<Byte>): string {
    var buf := FilledBuffer(QByteArraySize(lib.sha256Length));
    lib.fromUtf8(WriteInto(buf, lib.sha256(input, buf)))
  }

  /** `sha256Bytes`: the output buffer is sized by `olm_sha256_length`,
      narrowed to an `int`, before the call; the library writes into it over exactly the input bytes, and
      the digest is that buffer, still of the same length, read as text. */
  method Sha256Bytes(u: Utility, input: seq<Byte>) returns (digest: string, ghost outputBuf: seq<Byte>)
    requires u.phase == Ready
    ensures |outputBuf| == QByteArraySize(u.lib.sha256Length)
    ensures u.lib.sha256Length <= Json.IntMax ==> |outputBuf| == u.lib.sha256Length
    ensures digest == u.lib.fromUtf8(WriteInto(outputBuf, u.lib.sha256(input, outputBuf)))
    ensures exists after: seq<Byte> :: |after| == QByteArraySize(u.lib.sha256Length) && digest == u.lib.fromUtf8(after)
    ensures digest == Digest(u.lib, input)
  {
    var outputLen := QByteArraySize(u.lib.sha256Length);
    var buf := FilledBuffer(outputLen);
    outputBuf := buf;
    digest := u.lib.fromUtf8(WriteInto(buf, u.lib.sha256(input, buf)));
  }

  /** `sha256Utf8Msg`: the digest of the message's UTF-8 bytes; not a
      separate algorithm. */
  method Sha256Utf8Msg(u: Utility, message: string) returns (digest: string)
    requires u.phase == Ready
    ensures digest == Digest(u.lib, Utf8.Encode(message))
  {
    ghost var outputBuf;
    digest, outputBuf := Sha256Bytes(u, Utf8.Encode(message));
  }

  /** Two different messages are hashed over two different byte strings. */
  lemma Utf8MessagesHashDistinctInputs(m1: string, m2: string)
    requires m1 != m2
    ensures Utf8.Encode(m1) != Utf8.Encode(m2)
  {
    if Utf8.Encode(m1) == Utf8.Encode(m2) {
      Utf8.EncodeInjective(m1, m2);
    }
  }

  // === Signature verification ===

  /** How `ed25519Verify` turns the library's report into its result. */
  function ClassifyVerify(report: VerifyReport): (r: Result<bool, OlmError>)
    ensures report.ret != OlmErrorCode ==> r == Ok(report.ret == 0)
    ensures report.ret == OlmErrorCode && report.lastError == BadMessageMac ==> r == Ok(false)
    ensures report.ret == OlmErrorCode && report.lastError != BadMessageMac
            ==> r == Err(report.lastError)
  {
    if report.ret == OlmErrorCode then
      if report.lastError == BadMessageMac then Ok(false) else Err(report.lastError)
    else Ok(report.ret == 0)
  }

  /** A failing call is never reported as a verified signature, and a bad
      MAC never escapes as an error. */
  lemma ClassifyVerifySafe(report: VerifyReport)
    ensures ClassifyVerify(report) == Ok(true) <==> report.ret == 0
    ensures ClassifyVerify(report).Err? ==> ClassifyVerify(report).error != BadMessageMac
    ensures ClassifyVerify(report).Err?
            <==> report.ret == OlmErrorCode && report.lastError != BadMessageMac
  {
  }

  /** `ed25519Verify`: the signature is copied into a scratch buffer, which
      the library may overwrite, and the library's report is classified.
      The buffer handed over holds exactly the signature's bytes. */
  method Ed25519Verify(u: Utility, key: seq<Byte>, message: seq<Byte>, signature: seq<Byte>)
    returns (r: Result<bool, OlmError>, ghost signatureBuf: seq<Byte>)
    requires u.phase == Ready
    ensures signatureBuf == signature
    ensures r == ClassifyVerify(u.lib.ed25519Verify(key, message, signatureBuf))
    ensures r == ClassifyVerify(u.lib.ed25519Verify(key, message, signature))
  {
    var buf := FilledBuffer(|signature|);
    var i := 0;
    while i < |signature|
      invariant 0 <= i <= |signature|
      invariant |buf| == |signature|
      invariant buf[..i] == signature[..i]
    {
      buf := buf[i := signature[i]];
      i := i + 1;
    }
    assert buf == buf[..i];
    signatureBuf := buf;
    r := ClassifyVerify(u.lib.ed25519Verify(key, message, buf));
  }
}

=== FILE: roommessage.dfy ===
/** `m.room.message` events: the message-type enumeration, the event built
    from explicit fields, text content, and the `PlayableContent` decorator
    that adds a duration to audio and video content. */
module RoomMessage {
  import opened Wrappers
  import opened Json

  /** `RoomMessageEvent::TypeId`. */
  const RoomMessageTypeId: string := "m.room.message"

  /** `RoomMessageEvent::MsgType`. */
  datatype MsgType = Text | Emote | Notice | Image | File | Location | Video | Audio | Unknown

  /** The `msgtype` wire string of each kind, as the Matrix Client-Server API
      names the `m.room.message` msgtypes; `Unknown` has none. */
  function WireName(t: MsgType): (r: Option<string>)
    ensures r.None? <==> t == Unknown
  {
    match t
    case Text => Some("m.text")
    case Emote => Some("m.emote")
    case Notice => Some("m.notice")
    case Image => Some("m.image")
    case File => Some("m.file")
    case Location => Some("m.location")
    case Video => Some("m.video")
    case Audio => Some("m.audio")
    case Unknown => None
  }

  /** The enumeration value of a wire string; a string outside the table is
      `Unknown` rather than a failure. */
  function ParseMsgType(s: string): (r: MsgType)
    ensures r != Unknown ==> WireName(r) == Some(s)
  {
    if s == "m.text" then Text
    else if s == "m.emote" then Emote
    else if s == "m.notice" then Notice
    else if s == "m.image" then Image
    else if s == "m.file" then File
    else if s == "m.location" then Location
    else if s == "m.video" then Video
    else if s == "m.audio" then Audio
    else Unknown
  }

  /** Every known kind survives the trip through its wire name. */
  lemma ParseWireName(t: MsgType)
    requires t != Unknown
    ensures ParseMsgType(WireName(t).value) == t
  {
  }

  /** A wire string maps to `Unknown` exactly when no kind has it as its name. */
  lemma ParseUnknownIff(s: string)
    ensures ParseMsgType(s) == Unknown <==> forall t: MsgType :: WireName(t) != Some(s)
  {
    if ParseMsgType(s) == Unknown {
      forall t: MsgType ensures WireName(t) != Some(s) {
        if t != Unknown {
          ParseWireName(t);
        }
      }
    }
  }

  /** Content with a MIME type: `TextContent` (rich or plain text body). */
  datatype TextContent = TextContent(mimeType: string, body: string) {
    /** `TextContent::type()`. */
    function Type(): string {
      mimeType
    }
  }

  /** The content type reported is the MIME type the content was made with,
      whatever the body. */
  lemma TextContentType(mimeType: string, body: string)
    ensures TextContent(mimeType, body).Type() == mimeType
  {
  }

  /** The event as the field constructor builds it: the event type, the raw
      `msgtype` string, the plain-text body and optionally owned content of
      any content class `C`. */
  datatype RoomMessageEvent<C> = RoomMessageEvent(
    eventType: string,
    msgtype: string,
    body: string,
    contentSlot: Option<C>)
  {
    /** `rawMsgtype()`. */
    function RawMsgtype(): string { msgtype }
    /** `plainBody()`. */
    function PlainBody(): string { body }
    /** `content()`: the owned content, or null. */
    function Content(): Option<C> { contentSlot }
  }

  /** `RoomMessageEvent(plainBody, jsonMsgType, content)`: note that the body
      comes first and the wire msgtype second. */
  function NewRoomMessageEvent<C>(plainBody: string, jsonMsgType: string, content: Option<C>)
    : RoomMessageEvent<C>
  {
    RoomMessageEvent(RoomMessageTypeId, jsonMsgType, plainBody, content)
  }

  /** The accessors give back exactly the constructor's arguments, and the
      event is an `m.room.message`. */
  lemma FieldConstructorStoresVerbatim<C>(plainBody: string, jsonMsgType: string, content: Option<C>)
    ensures NewRoomMessageEvent(plainBody, jsonMsgType, content).RawMsgtype() == jsonMsgType
    ensures NewRoomMessageEvent(plainBody, jsonMsgType, content).PlainBody() == plainBody
    ensures NewRoomMessageEvent(plainBody, jsonMsgType, content).Content() == content
    ensures NewRoomMessageEvent(plainBody, jsonMsgType, content).eventType == RoomMessageTypeId
  {
  }

  // === PlayableContent<ContentT> ===

  const InfoKey: string := "info"
  const DurationKey: string := "duration"

  /** `PlayableContent<ContentT>`: the base content and a duration. */
  datatype Playable<B> = Playable(base: B, duration: Int32)

  /** The `info` object of a content JSON, which the base content keeps as
      `originalInfoJson`. */
  function InfoOf(json: JsonObject): JsonObject {
    ToObject(Value(json, InfoKey))
  }

  /** What the constructor from JSON yields: the playable content, and the
      base's `originalInfoJson` as the constructor leaves it. */
  datatype Constructed<B> = Constructed(content: Playable<B>, baseInfo: JsonObject)

  /** The constructor from JSON: the base is built first, then `duration`
      is read from the base's `originalInfoJson` with the non-const
      `operator[]`, defaulting to 0. That read inserts `"duration": null`
      into `originalInfoJson` when the key is absent. */
  function PlayableFromJson<B>(parseBase: JsonObject -> B, json: JsonObject): (r: Constructed<B>)
    ensures r.content.base == parseBase(json)
    ensures !(DurationKey in InfoOf(json) && InfoOf(json)[DurationKey].Number?
              && IsInt32(InfoOf(json)[DurationKey].n))
            ==> r.content.duration == 0
    ensures DurationKey in InfoOf(json) && InfoOf(json)[DurationKey].Number?
            && IsInt32(InfoOf(json)[DurationKey].n)
            ==> r.content.duration as real == InfoOf(json)[DurationKey].n
    // the base's info: unchanged when it had a duration, else one Null added
    ensures DurationKey in InfoOf(json) ==> r.baseInfo == InfoOf(json)
    ensures DurationKey !in InfoOf(json)
            ==> r.baseInfo.Keys == InfoOf(json).Keys + {DurationKey}
                && r.baseInfo[DurationKey] == Null
                && forall k :: k in InfoOf(json) ==> r.baseInfo[k] == InfoOf(json)[k]
  {
    var (read, info) := Subscript(InfoOf(json), DurationKey);
    Constructed(Playable(parseBase(json), ToInt(Some(read))), info)
  }

  /** `fillJson`: the base writes its keys first; then `info` is taken out,
      `duration` inserted into it, and `info` put back. */
  function PlayableFillJson<B>(p: Playable<B>, baseFill: (B, JsonObject) -> JsonObject,
                               json: JsonObject): (r: JsonObject)
    // duration lands inside info, as a number
    ensures InfoKey in r && r[InfoKey].Object?
    ensures Value(r[InfoKey].fields, DurationKey) == Some(FromInt(p.duration))
    // top level: the base's keys, plus info, and nothing else changes
    ensures r.Keys == baseFill(p.base, json).Keys + {InfoKey}
    ensures forall k :: k in baseFill(p.base, json) && k != InfoKey
                        ==> r[k] == baseFill(p.base, json)[k]
    // inside info: the base's info keys are kept, plus duration
    ensures r[InfoKey].fields.Keys == InfoOf(baseFill(p.base, json)).Keys + {DurationKey}
    ensures forall k :: k in InfoOf(baseFill(p.base, json)) && k != DurationKey
                        ==> r[InfoKey].fields[k] == InfoOf(baseFill(p.base, json))[k]
    // no info from the base: info holds the duration alone
    ensures InfoKey !in baseFill(p.base, json)
            ==> r[InfoKey] == Object(map[DurationKey := FromInt(p.duration)])
  {
    var filled := baseFill(p.base, json);
    var (taken, rest) := Take(filled, InfoKey);
    var infoJson := ToObject(taken)[DurationKey := FromInt(p.duration)];
    rest[InfoKey := Object(infoJson)]
  }

  /** Parsing what `fillJson` wrote gives back the same duration. */
  lemma PlayableRoundTrip<B>(p: Playable<B>, baseFill: (B, JsonObject) -> JsonObject,
                             parseBase: JsonObject -> B, json: JsonObject)
    ensures PlayableFromJson(parseBase, PlayableFillJson(p, baseFill, json)).content.duration == p.duration
  {
    var out := PlayableFillJson(p, baseFill, json);
    assert InfoOf(out) == out[InfoKey].fields;
    ToIntFromInt(p.duration);
  }

  /** When the base's own parse and fill round-trip, the whole playable
      content does, and nothing is inserted into the base's info. */
  lemma PlayableContentRoundTrip<B>(p: Playable<B>, baseFill: (B, JsonObject) -> JsonObject,
                                    parseBase: JsonObject -> B, json: JsonObject)
    requires parseBase(PlayableFillJson(p, baseFill, json)) == p.base
    ensures PlayableFromJson(parseBase, PlayableFillJson(p, baseFill, json)).content == p
    ensures PlayableFromJson(parseBase, PlayableFillJson(p, baseFill, json)).baseInfo
            == InfoOf(PlayableFillJson(p, baseFill, json))
  {
    PlayableRoundTrip(p, baseFill, parseBase, json);
    var out := PlayableFillJson(p, baseFill, json);
    assert DurationKey in InfoOf(out);
  }
}

=== FILE: utf8.dfy ===
/** UTF-8 encoding of text (`QString::toUtf8`), with a decoder as its
    partner: decoding an encoding gives the text back, so the encoding is
    injective. */
module Utf8 {
  import opened Wrappers

  type Byte = b: int | 0 <= b < 0x100

  /** Bytes 0x80..0xBF continue a multi-byte sequence. */
  predicate IsContinuation(b: Byte) {
    0x80 <= b < 0xC0
  }

  /** A Unicode scalar value: a code point that is not a surrogate. */
  predicate IsScalar(cp: int) {
    (0 <= cp < 0xD800) || (0xE000 <= cp < 0x11_0000)
  }

  /** The one to four bytes of one character. */
  function EncodeChar(c: char): (r: seq<Byte>)
    ensures 1 <= |r| <= 4
    ensures (c as int < 0x80) <==> |r| == 1
    ensures |r| == 1 ==> r[0] == c as int
    ensures forall i :: 1 <= i < |r| ==> IsContinuation(r[i])
  {
    var cp := c as int;
    if cp < 0x80 then [cp]
    else if cp < 0x800 then [0xC0 + cp / 0x40, 0x80 + cp % 0x40]
    else if cp < 0x1_0000 then
      [0xE0 + cp / 0x1000, 0x80 + (cp / 0x40) % 0x40, 0x80 + cp % 0x40]
    else
      [0xF0 + cp / 0x4_0000, 0x80 + (cp / 0x1000) % 0x40,
       0x80 + (cp / 0x40) % 0x40, 0x80 + cp % 0x40]
  }

  /** `QString::toUtf8()` for text made of scalar values. */
  function Encode(s: string): seq<Byte> {
    if |s| == 0 then [] else EncodeChar(s[0]) + Encode(s[1..])
  }

  /** The character at the start of `b` and how many bytes it takes. */
  function DecodeFirst(b: seq<Byte>): Option<(char, nat)> {
    if |b| == 0 then None
    else if b[0] < 0x80 then Some((b[0] as char, 1))
    else if 0xC0 <= b[0] < 0xE0 && |b| >= 2 && IsContinuation(b[1]) then
      var cp := (b[0] as int - 0xC0) * 0x40 + (b[1] as int - 0x80);
      if 0x80 <= cp then Some((cp as char, 2)) else None
    else if 0xE0 <= b[0] < 0xF0 && |b| >= 3 && IsContinuation(b[1]) && IsContinuation(b[2]) then
      var cp := (b[0] as int - 0xE0) * 0x1000 + (b[1] as int - 0x80) * 0x40 + (b[2] as int - 0x80);
      if 0x800 <= cp && IsScalar(cp) then Some((cp as char, 3)) else None
    else if 0xF0 <= b[0] < 0xF5 && |b| >= 4 && IsContinuation(b[1]) && IsContinuation(b[2])
            && IsContinuation(b[3]) then
      var cp := (b[0] as int - 0xF0) * 0x4_0000 + (b[1] as int - 0x80) * 0x1000
                + (b[2] as int - 0x80) * 0x40 + (b[3] as int - 0x80);
      if 0x1_0000 <= cp && IsScalar(cp) then Some((cp as char, 4)) else None
    else None
  }

  /** Strict UTF-8 decoding: the text, or nothing for malformed bytes. */
  function Decode(b: seq<Byte>): Option<string>
    decreases |b|
  {
    if |b| == 0 then Some("")
    else match DecodeFirst(b)
      case None => None
      case Some((c, n)) =>
        if n == 0 || n > |b| then None
        else match Decode(b[n..])
          case None => None
          case Some(rest) => Some([c] + rest)
  }

  /** Splitting a code point into 6-bit groups and joining them is exact. */
  lemma SixBitGroups(cp: nat)
    ensures (cp / 0x40) * 0x40 + cp % 0x40 == cp
    ensures (cp / 0x1000) * 0x1000 + ((cp / 0x40) % 0x40) * 0x40 + cp % 0x40 == cp
    ensures (cp / 0x4_0000) * 0x4_0000 + ((cp / 0x1000) % 0x40) * 0x1000
            + ((cp / 0x40) % 0x40) * 0x40 + cp % 0x40 == cp
  {
    var q := cp / 0x40;
    assert cp == q * 0x40 + cp % 0x40;
    assert q == (q / 0x40) * 0x40 + q % 0x40;
    assert q / 0x40 == cp / 0x1000;
    var q2 := cp / 0x1000;
    assert q2 == (q2 / 0x40) * 0x40 + q2 % 0x40;
    assert q2 / 0x40 == cp / 0x4_0000;
    assert (cp / 0x40) / 0x40 == cp / 0x1000;
  }

  lemma DecodeFirstTwoBytes(c: char, rest: seq<Byte>)
    requires 0x80 <= c as int < 0x800
    ensures DecodeFirst(EncodeChar(c) + rest) == Some((c, 2))
  {
    var cp := c as int;
    var b := EncodeChar(c) + rest;
    assert b[0] == 0xC0 + cp / 0x40 && b[1] == 0x80 + cp % 0x40;
    SixBitGroups(cp);
    assert (b[0] as int - 0xC0) * 0x40 + (b[1] as int - 0x80) == cp;
  }

  lemma DecodeFirstThreeBytes(c: char, rest: seq<Byte>)
    requires 0x800 <= c as int < 0x1_0000
    ensures DecodeFirst(EncodeChar(c) + rest) == Some((c, 3))
  {
    var cp := c as int;
    var b := EncodeChar(c) + rest;
    assert b[0] == 0xE0 + cp / 0x1000;
    assert b[1] == 0x80 + (cp / 0x40) % 0x40;
    assert b[2] == 0x80 + cp % 0x40;
    SixBitGroups(cp);
    assert (b[0] as int - 0xE0) * 0x1000 + (b[1] as int - 0x80) * 0x40 + (b[2] as int - 0x80) == cp;
  }

  lemma DecodeFirstFourBytes(c: char, rest: seq<Byte>)
    requires 0x1_0000 <= c as int
    ensures DecodeFirst(EncodeChar(c) + rest) == Some((c, 4))
  {
    var cp := c as int;
    var b := EncodeChar(c) + rest;
    assert b[0] == 0xF0 + cp / 0x4_0000;
    assert b[1] == 0x80 + (cp / 0x1000) % 0x40;
    assert b[2] == 0x80 + (cp / 0x40) % 0x40;
    assert b[3] == 0x80 + cp % 0x40;
    SixBitGroups(cp);
    assert (b[0] as int - 0xF0) * 0x4_0000 + (b[1] as int - 0x80) * 0x1000
           + (b[2] as int - 0x80) * 0x40 + (b[3] as int - 0x80) == cp;
  }

  /** The first character of an encoding decodes back, whatever follows it. */
  lemma DecodeFirstEncodeChar(c: char, rest: seq<Byte>)
    ensures DecodeFirst(EncodeChar(c) + rest) == Some((c, |EncodeChar(c)|))
  {
    var cp := c as int;
    if cp < 0x80 {
    } else if cp < 0x800 {
      DecodeFirstTwoBytes(c, rest);
    } else if cp < 0x1_0000 {
      DecodeFirstThreeBytes(c, rest);
    } else {
      DecodeFirstFourBytes(c, rest);
    }
  }

  /** Decoding the UTF-8 encoding of any text gives the text back. */
  lemma {:induction false} DecodeEncode(s: string)
    ensures Decode(Encode(s)) == Some(s)
  {
    if |s| > 0 {
      var head := EncodeChar(s[0]);
      DecodeFirstEncodeChar(s[0], Encode(s[1..]));
      assert (head + Encode(s[1..]))[|head|..] == Encode(s[1..]);
      DecodeEncode(s[1..]);
      assert [s[0]] + s[1..] == s;
    }
  }

  /** Distinct texts have distinct encodings. */
  lemma EncodeInjective(s: string, t: string)
    requires Encode(s) == Encode(t)
    ensures s == t
  {
    DecodeEncode(s);
    DecodeEncode(t);
  }
}

=== FILE: wrappers.dfy ===
/** Optional and error-carrying result types shared by the model. */
module Wrappers {

  /** A value that may be absent: the model's stand-in for a null pointer
      or an empty `QVariant`. */
  datatype Option<+T> = None | Some(value: T)

  /** A value or an error: the model's stand-in for `QOlmExpected<T>`. */
  datatype Result<+T, +E> = Ok(value: T) | Err(error: E)
}
